=== FILE: README.md ===
# Zoom webhook bridge: a Dafny model of the request decision

The bridge is a single HTTP route, `app/api/zoom/route.js`. It receives
webhook deliveries from the Zoom platform, proves they come from Zoom, and
relays them unchanged to one configured downstream URL (a Google Apps Script
endpoint, the `GAS_URL`). For each POST the handler takes these steps in a
fixed order:

1. Decode the body. A non-empty body that is not JSON gets 400
   `Invalid JSON`. An empty body counts as `{}`.
2. Answer the endpoint-ownership challenge (`event ===
   "endpoint.url_validation"`). The reply is the `plainToken` and its
   HMAC-SHA256 under the shared secret, or 400 `Missing plainToken/secret`.
3. Authenticate the delivery when a secret is configured, the
   `x-zm-signature` header starts with `v0=`, and the timestamp header is
   non-empty:
   - a timestamp that is not a finite number, or is more than 300 seconds
     from the clock, gets 401 `Stale timestamp`;
   - a signature other than `v0=` + HMAC(`v0:<ts>:<raw body>`) gets 401
     `Bad signature`.
4. Refuse with 500 `Missing GAS_URL` when no destination is configured.
5. Otherwise relay the raw body and answer 200 `{ok: true,
   forwardedStatus}`.

The model casts this as one pure function, `Route.Decide(cfg, prims, req,
nowMillis)`, which returns an `Outcome`. What the handler reads from its
environment is a parameter:

- `Config` is the trimmed secret and destination. `Route.LoadConfig`
  builds it from the raw environment values and models `String.prototype.trim`
  exactly.
- `Request` is the raw body text plus the two header values.
- `nowMillis` is the `Date.now()` reading.
- `Primitives` bundles the three library calls whose internals are out of
  scope, as function values:
  - `hmacHex`, HMAC-SHA256 (RFC 2104 over SHA-256) in lower-case hex;
  - `parseJson`, which is `JSON.parse`;
  - `toNumber`, which is `Number`.

The JSON values that `JSON.parse` yields are modelled as the datatype
`Json.Json`, together with the two operations the handler applies to them:
optional-chaining property reads, where the last duplicate key wins, and
JavaScript truthiness.

Files:

- `options.dfy`: the `Option` type.
- `jsstring.dfy`: `trim` and `startsWith`.
- `json.dfy`: JSON values, property reads, truthiness.
- `timestamp.dfy`: `isTimestampFresh`.
- `signature.dfy`: the signed message and the `v0=` wire form.
- `route.dfy`: the handler's decision.
- `route_properties.dfy`: properties relating several requests.

Three behaviours of the code are easy to misread. The model keeps each
one as the code has it:

- A missing or empty timestamp header skips verification, like a missing
  secret or signature does. It does not give `Stale`.
- The two 401 refusals name the failed check in their error text (`Stale
  timestamp` or `Bad signature`). They are not one indistinct category
  (`RouteProperties.AuthenticationRefusals`).
- The challenge tests the token for JavaScript truthiness, not for being
  a string. A truthy non-string token (a number, `true`, an array, an
  object) reaches `hmacHex`, which throws a TypeError. The model keeps this
  as the outcome `UncaughtTypeError` instead of folding it into another
  variant.

## Model

| member | source | states |
|---|---|---|
| JsString.TrimStart | app/api/zoom/route.js:15-16 | the result is the longest suffix of the input that does not start with a code point `trim` removes; everything dropped is such a code point |
| JsString.TrimEnd | app/api/zoom/route.js:15-16 | the result is the longest prefix of the input that does not end with a code point `trim` removes; everything dropped is such a code point |
| JsString.Trim | app/api/zoom/route.js:15-16 | `trim` keeps one contiguous piece of the input untouched, the one starting right after the leading white space, and removes only white space and line terminators on either side; it gives "" exactly when the input is all white space or line terminators, and otherwise starts and ends with a kept code point |
| JsString.TrimIdempotent | app/api/zoom/route.js:15-16 | trimming a trimmed setting changes nothing |
| JsString.StartsWith | app/api/zoom/route.js:50 | `sig.startsWith("v0=")` holds exactly when `v0=` is a prefix of the header |
| Json.Lookup | app/api/zoom/route.js:22 | reading a key from a parsed object gives the value of the last member with that key, and undefined exactly when no member has it |
| Json.LookupAfterAppend | app/api/zoom/route.js:22 | a later duplicate key overrides an earlier one and leaves other keys unaffected |
| Json.Get | app/api/zoom/route.js:31-32 | `x?.key` is defined only on objects, and then is the value of the last member with that key; undefined on an object means no member has it |
| Json.Truthy | app/api/zoom/route.js:33 | a value is falsy exactly when it is undefined, `null`, `false`, zero or the empty string; arrays and objects, even empty ones, are truthy |
| Timestamp.NowSeconds | app/api/zoom/route.js:10 | `Math.floor(Date.now() / 1000)` is the whole second containing the millisecond reading |
| Timestamp.Abs | app/api/zoom/route.js:11 | `Math.abs` gives the non-negative one of the number and its negation |
| Timestamp.IsTimestampFresh | app/api/zoom/route.js:7-12 | a timestamp is fresh exactly when it is a finite number within 300 seconds of the clock, either way, bounds included |
| Timestamp.FreshnessBoundary | app/api/zoom/route.js:11 | exactly 300 seconds off in either direction is fresh; 301 seconds off in either direction is stale |
| Timestamp.NonNumericNeverFresh | app/api/zoom/route.js:8-9 | a timestamp that is NaN or infinite is never fresh |
| Signature.SignedMessage | app/api/zoom/route.js:57 | the signed message carries the `v0:` tag, the timestamp as received, a colon and the raw body as received, each at a known position |
| Signature.RenderSignature | app/api/zoom/route.js:58 | the expected header is the `v0=` tag followed by the digest |
| Signature.ParseSignature | app/api/zoom/route.js:50-59 | a header has a digest exactly when it starts with `v0=`, and rendering that digest rebuilds the header |
| Signature.ParseRender | app/api/zoom/route.js:58 | reading back a rendered signature gives the digest |
| Signature.MatchIsParse | app/api/zoom/route.js:58-59 | the comparison `expected !== sig` is the same as comparing the digest read from the header |
| Signature.SignedMessageDeterminesBody | app/api/zoom/route.js:57 | for one timestamp, different bodies give different signed messages |
| Signature.SignedMessageInjective | app/api/zoom/route.js:57 | for timestamps without a colon, the signed message determines both the timestamp and the body |
| Signature.ColonTimestampAmbiguous | app/api/zoom/route.js:57 | a timestamp containing a colon makes two different (timestamp, body) pairs share one signed message |
| Options.Option.GetOr | app/api/zoom/route.js:15-16 | `x \|\| ""` on a string that may be absent is the string when present and "" when absent |
| Route.LoadSetting | app/api/zoom/route.js:15-16 | a setting is "" exactly when its variable is unset or all white space; it is already trimmed, so empty or starting and ending with a kept code point; and it is an untouched piece of the raw value with only white space before and after it |
| Route.LoadConfig | app/api/zoom/route.js:15-16 | the secret and the destination each relate to their own environment variable as a loaded setting does: "" exactly when unset or blank, already trimmed, and otherwise the raw value's content between its white-space margins |
| Route.DecodeBody | app/api/zoom/route.js:20-28 | the empty body decodes to `{}`; any other body decodes to what `JSON.parse` gives for it, so decoding fails only for a non-empty body that `JSON.parse` rejects |
| Route.IsChallenge | app/api/zoom/route.js:31 | a decoded body is a challenge exactly when it is an object whose last `event` member is the string `endpoint.url_validation` |
| Route.ChallengeToken | app/api/zoom/route.js:32 | a token is found only inside an object `payload` of an object body, as its `plainToken`; when `payload` is an object, the token is exactly its `plainToken`, absent or not |
| Route.AnswerChallenge | app/api/zoom/route.js:31-44 | a challenge is answered exactly when the token is a non-empty string and a secret is set, with that token and its HMAC under the secret; it is `MissingChallenge` exactly when the token is falsy or there is no secret; otherwise the HMAC throws |
| Route.VerificationApplies | app/api/zoom/route.js:50 | signature checking runs exactly when a secret is set, the timestamp header is non-empty, and the signature header carries a `v0=` digest |
| Route.ExpectedSignature | app/api/zoom/route.js:57-58 | the expected header carries the HMAC of the signed message over the timestamp and the raw body |
| Route.Verify | app/api/zoom/route.js:47-65 | verification is skipped exactly when the secret, the `v0=` header or the timestamp is missing; it is stale exactly when it runs on a non-fresh timestamp; it is authentic exactly when it runs, the timestamp is fresh, and the digest matches the HMAC over the raw body |
| Route.Dispatch | app/api/zoom/route.js:46-84 | only an unverified or authentic delivery reaches the relay |
| Route.Decide | app/api/zoom/route.js:14-85 | `InvalidJson` exactly for an undecodable non-empty body; a challenge outcome exactly for a decoded challenge, with the HMAC of the token under a set secret; 401s only when checking applies; a checked non-challenge with a non-fresh timestamp is always stale, and stale only then; a bad signature only for a fresh timestamp; a relay carries the raw body, needs a destination and, when checking applies, a fresh and correct signature |
| Route.Status | app/api/zoom/route.js:24-84 | 200 for challenge answers and relays, 400 for undecodable bodies and missing challenge material, 401 for both authentication refusals, 500 for a missing destination |
| Route.ErrorMessage | app/api/zoom/route.js:24-73 | an error text accompanies exactly the responses of status 400 or above |
| RouteProperties.DecideIsDispatch | app/api/zoom/route.js:14-85 | the handler's inline branching takes the same decision as the pipeline decode, challenge, verify, relay |
| RouteProperties.InvalidJsonWhateverElse | app/api/zoom/route.js:21-28 | an undecodable non-empty body is `InvalidJson` whatever the headers, configuration and clock |
| RouteProperties.EmptyBodyIsEmptyObject | app/api/zoom/route.js:22 | an empty body is never `InvalidJson` and never a challenge |
| RouteProperties.ChallengeAnswered | app/api/zoom/route.js:31-44 | a challenge's outcome is the answer computed from its token and the secret |
| RouteProperties.ChallengeIgnoresEverythingElse | app/api/zoom/route.js:31-44 | headers, destination and clock do not change the answer to a challenge |
| RouteProperties.ChallengeExample | app/api/zoom/route.js:31-43 | token `abc123` under secret `shh` is answered with `abc123` and its HMAC under `shh` |
| RouteProperties.ForwardExactly | app/api/zoom/route.js:46-79 | a delivery is relayed, as its raw body, exactly when it decodes, is not a challenge, passes unverified or authentic, and a destination is set |
| RouteProperties.StaleBeforeSignature | app/api/zoom/route.js:50-56 | with checking in force on a decoded non-challenge, the answer is `Stale` exactly when the timestamp is not fresh, whatever the signature header says |
| RouteProperties.GenuineSignatureStillStale | app/api/zoom/route.js:50-58 | even the signature a genuine sender would attach does not save a delivery with a stale timestamp |
| RouteProperties.GenuineFreshForwarded | app/api/zoom/route.js:50-79 | a delivery carrying the signature a genuine sender attaches, with a fresh timestamp, is relayed as its raw body whenever a destination is set, secret or no secret |
| RouteProperties.BadSignatureExactly | app/api/zoom/route.js:57-64 | with checking applying and a fresh timestamp, `BadSignature` happens exactly when the header differs from the expected signature |
| RouteProperties.MissingDestinationRefusesPassingDeliveries | app/api/zoom/route.js:68-73 | with no destination, every delivery that passes the checks is `MissingGasUrl`, correctly signed ones included |
| RouteProperties.NoSecretRelaysAnything | app/api/zoom/route.js:50-79 | with no secret and a destination set, every decodable non-challenge delivery is relayed, whatever its headers |
| RouteProperties.TamperedBodyRefused | app/api/zoom/route.js:50-64 | for an idealised HMAC injective under the secret: under checking, headers carrying a genuine signature of one body and a fresh timestamp make any other body that decodes to a non-challenge `BadSignature`, at the same clock reading, whether or not a destination is set |
| RouteProperties.SignatureBindsDelivery | app/api/zoom/route.js:50-64 | for an idealised HMAC that is injective under the secret, two checked deliveries relayed under one signature have the same timestamp and body |
| RouteProperties.AuthenticationRefusals | app/api/zoom/route.js:51-64 | stale and bad-signature refusals share status 401 but have different error texts |

## Left out

- The HMAC-SHA256 computation (`crypto.createHmac`, lines 3-5) is the parameter `Primitives.hmacHex`. `TamperedBodyRefused` and `SignatureBindsDelivery` hold for an idealised HMAC that is injective under the secret (`CollisionFree`). A real HMAC-SHA256 has collisions, since its output has a fixed length, but finding one is computationally infeasible. The two lemmas are therefore statements about the ideal, not about SHA-256.
- The request body (line 18) is the text `req.text()` returns. The model starts from that decoded text. It does not model the UTF-8 decoding that produces it: removing a leading byte order mark, and replacing invalid byte sequences with U+FFFD. So two different byte strings can reach the model as the same `rawBody`.
- `JSON.parse` (line 22) is the parameter `Primitives.parseJson`. The JSON grammar is not modelled, only the values it produces.
- Json.Json: string values are sequences of Unicode scalar values. A JSON string holding an unpaired surrogate escape such as `"\ud800"`, which `JSON.parse` accepts, has no representation. This touches only the token echoed in a challenge answer and the HMAC input, where the UTF-8 encoding of line 4 turns a lone surrogate into the bytes of U+FFFD. Which outcome the handler chooses is not affected.
- Json.Json: a number literal out of double range, such as `1e400`, parses to `Infinity`. The model has no infinity. It represents such a number by some non-zero real, which is faithful for the only thing the handler reads from it, truthiness. Finite numbers are exact reals, not doubles.
- `Number(ts)` (line 8) is the parameter `Primitives.toNumber`. Its string-to-double conversion, and double rounding of very large timestamps, are not modelled. Timestamps are exact reals.
- `Date.now()` (line 10) is the parameter `nowMillis`.
- `process.env` (lines 15-16) is the pair of optional strings passed to `LoadConfig`.
- Header lookup (lines 47-48) is not modelled. The headers are the values `req.headers.get` returns, with case-insensitive names and joined repeated headers already resolved.
- The downstream `fetch` (lines 75-79) is network I/O. `Forward(body)` is the decision to relay. The downstream status and a rejected `fetch`, which makes the handler throw, are not modelled.
- `Response` construction (JSON serialisation of reply bodies, `Content-Type` headers) is not modelled. Only the status (`Route.Status`) and error texts (`Route.ErrorMessage`) are.
- Route.Status: gives no status for `UncaughtTypeError`, because the hosting server, not the handler, answers a thrown error.
- The `GET` liveness probe (lines 87-89) is a constant `200 ok` response with no decision in it.
- Property reads model own properties of parsed JSON only. The three keys read (`event`, `payload`, `plainToken`) are not inherited by any JSON value.

=== FILE: json.dfy ===
/** The JavaScript values `JSON.parse` can produce, and the two things the
    handler does with them: optional-chaining property reads (`x?.key`) and
    truthiness tests (`!x`). */
module Json {
  import opened Options

  /** A decoded JSON value. Numbers are reals: `JSON.parse` never yields
      NaN, and the infinity an out-of-range literal such as `1e400` yields
      is represented by some non-zero real (only its truthiness is ever
      read). Strings are sequences of Unicode scalar values, so an
      unpaired surrogate escape such as `\ud800` has no counterpart.
      Object members keep their textual order, duplicates included. */
  datatype Json =
    | JNull
    | JBool(b: bool)
    | JNumber(n: real)
    | JString(s: string)
    | JArray(items: seq<Json>)
    | JObject(members: seq<(string, Json)>)

  /** The empty object `{}`. */
  const EmptyObject: Json := JObject([])

  /** The value of `key` among `members`. `JSON.parse` lets a later
      duplicate key overwrite an earlier one, so the LAST member with that
      key is the one read; `None` when no member has the key. */
  function Lookup(members: seq<(string, Json)>, key: string): (r: Option<Json>)
    ensures r.None? <==> forall i :: 0 <= i < |members| ==> members[i].0 != key
    ensures r.Some? ==>
              exists i :: 0 <= i < |members| && members[i] == (key, r.value)
                          && forall j :: i < j < |members| ==> members[j].0 != key
  {
    if |members| == 0 then None
    else if members[|members| - 1].0 == key then Some(members[|members| - 1].1)
    else
      var r := Lookup(members[..|members| - 1], key);
      assert forall i :: 0 <= i < |members| - 1 ==> members[..|members| - 1][i] == members[i];
      r
  }

  /** `x?.key` where `None` is `undefined`: reading an own property of an
      object; `undefined` for `undefined`, `null`, and every non-object
      (the keys this model reads, `event`, `payload` and `plainToken`, are
      not inherited properties of strings, numbers, booleans or arrays). */
  function Get(x: Option<Json>, key: string): (r: Option<Json>)
    ensures r.Some? ==> x.Some? && x.value.JObject?
                        && exists i :: 0 <= i < |x.value.members| && x.value.members[i] == (key, r.value)
                                       && forall j :: i < j < |x.value.members| ==> x.value.members[j].0 != key
    ensures r.None? && x.Some? && x.value.JObject? ==>
              forall i :: 0 <= i < |x.value.members| ==> x.value.members[i].0 != key
  {
    match x
    case Some(JObject(members)) => Lookup(members, key)
    case _ => None
  }

  /** JavaScript truthiness of a JSON value or `undefined`: `undefined`,
      `null`, `false`, `0`/`-0` and `""` are falsy; everything else,
      including empty arrays and objects, is truthy. */
  function Truthy(x: Option<Json>): (t: bool)
    ensures !t <==> x.None? || x.value in {JNull, JBool(false), JNumber(0.0), JString("")}
  {
    match x
    case None => false
    case Some(JNull) => false
    case Some(JBool(b)) => b
    case Some(JNumber(n)) => n != 0.0
    case Some(JString(s)) => s != ""
    case Some(JArray(_)) => true
    case Some(JObject(_)) => true
  }

  /** Overwriting a key: appending a member makes it the value read, and
      leaves every other key's value as it was. */
  lemma {:induction false} LookupAfterAppend(members: seq<(string, Json)>, key: string, v: Json, other: string)
    ensures Lookup(members + [(key, v)], key) == Some(v)
    ensures other != key ==> Lookup(members + [(key, v)], other) == Lookup(members, other)
  {
    var m := members + [(key, v)];
    assert m[..|m| - 1] == members;
  }
}

=== FILE: jsstring.dfy ===
/** The two string operations of ECMAScript that the handler applies to
    configuration and headers: `String.prototype.trim` and
    `String.prototype.startsWith`. Strings are sequences of code points. */
module JsString {

  /** The code points `trim` removes: the WhiteSpace production (tab,
      vertical tab, form feed, space, no-break space, byte order mark and
      every other "Zs" space separator) and the LineTerminator production
      (line feed, carriage return, line and paragraph separators) of
      sections 12.2 and 12.3 of ECMA-262. */
  predicate IsTrimmable(c: char) {
    c in TrimmableCodePoints
  }

  /** The WhiteSpace and LineTerminator code points, the "Zs" range
      U+2000..U+200A written out. */
  const TrimmableCodePoints: set<char> :=
    {'\t', '\U{000B}', '\U{000C}', ' ', '\U{00A0}', '\U{FEFF}',
     '\n', '\r', '\U{2028}', '\U{2029}',
     '\U{1680}', '\U{2000}', '\U{2001}', '\U{2002}', '\U{2003}', '\U{2004}', '\U{2005}',
     '\U{2006}', '\U{2007}', '\U{2008}', '\U{2009}', '\U{200A}',
     '\U{202F}', '\U{205F}', '\U{3000}'}

  /** Every code point of `s` is one `trim` removes (vacuously so for ""). */
  predicate AllTrimmable(s: string) {
    forall i :: 0 <= i < |s| ==> IsTrimmable(s[i])
  }

  /** Drops the leading trimmable code points: the result is the longest
      suffix of `s` that does not start with one. */
  function TrimStart(s: string): (r: string)
    ensures |r| <= |s| && r == s[|s| - |r|..]
    ensures forall i :: 0 <= i < |s| - |r| ==> IsTrimmable(s[i])
    ensures r == [] || !IsTrimmable(r[0])
  {
    if |s| > 0 && IsTrimmable(s[0]) then
      var r := TrimStart(s[1..]);
      assert s[1..][|s| - 1 - |r|..] == s[|s| - |r|..];
      r
    else
      s
  }

  /** Drops the trailing trimmable code points: the result is the longest
      prefix of `s` that does not end with one. */
  function TrimEnd(s: string): (r: string)
    ensures |r| <= |s| && r == s[..|r|]
    ensures forall i :: |r| <= i < |s| ==> IsTrimmable(s[i])
    ensures r == [] || !IsTrimmable(r[|r| - 1])
  {
    if |s| > 0 && IsTrimmable(s[|s| - 1]) then
      var r := TrimEnd(s[..|s| - 1]);
      assert s[..|s| - 1][..|r|] == s[..|r|];
      r
    else
      s
  }

  /** `r` is the piece of `s` starting at `lo`, and everything of `s`
      before and after it is trimmable. */
  predicate IsTrimmedInfix(s: string, r: string, lo: int) {
    && 0 <= lo && lo + |r| <= |s|
    && r == s[lo..lo + |r|]
    && (forall i :: 0 <= i < lo ==> IsTrimmable(s[i]))
    && (forall i :: lo + |r| <= i < |s| ==> IsTrimmable(s[i]))
  }

  /** `s.trim()`: `s` without its leading and trailing trimmable code
      points. What it keeps is the untouched infix of `s` after the leading
      trimmable run, with only trimmable code points around it; it is empty
      exactly when `s` consists of trimmable code points only, and otherwise
      starts and ends with a code point `trim` keeps. */
  function Trim(s: string): (r: string)
    ensures IsTrimmedInfix(s, r, |s| - |TrimStart(s)|)
    ensures r == [] <==> AllTrimmable(s)
    ensures r == [] || (!IsTrimmable(r[0]) && !IsTrimmable(r[|r| - 1]))
  {
    var t := TrimStart(s);
    var r := TrimEnd(t);
    StripBothEnds(s, t, r);
    assert r != [] ==> !IsTrimmable(s[|s| - |t|]) by {
      if r != [] { assert s[|s| - |t|] == t[0] == r[0]; }
    }
    r
  }

  /** Stripping a trimmable prefix off `s` to get `t`, then a trimmable
      suffix off `t` to get `r`, leaves `r` as an untouched infix of `s`
      with only trimmable code points around it. */
  lemma StripBothEnds(s: string, t: string, r: string)
    requires |t| <= |s| && t == s[|s| - |t|..]
    requires forall i :: 0 <= i < |s| - |t| ==> IsTrimmable(s[i])
    requires |r| <= |t| && r == t[..|r|]
    requires forall i :: |r| <= i < |t| ==> IsTrimmable(t[i])
    ensures IsTrimmedInfix(s, r, |s| - |t|)
    ensures r == [] ==> AllTrimmable(s)
  {
    var lo := |s| - |t|;
    forall i | lo + |r| <= i < |s| ensures IsTrimmable(s[i]) {
      assert s[i] == t[i - lo];
    }
  }

  /** `trim` is idempotent: configuration trimmed once is already trimmed. */
  lemma {:induction false} TrimIdempotent(s: string)
    ensures Trim(Trim(s)) == Trim(s)
  {
    var r := Trim(s);
    if r != [] {
      assert TrimStart(r) == r;
      assert TrimEnd(r) == r;
    }
  }

  /** `s.startsWith(prefix)`. */
  function StartsWith(s: string, prefix: string): (b: bool)
    ensures b <==> prefix <= s
  {
    |prefix| <= |s| && s[..|prefix|] == prefix
  }
}

=== FILE: options.dfy ===
/** The optional-value datatype shared by the model: `None` stands for
    JavaScript's `undefined`/`null` (an absent header, an absent property,
    a failed parse, a non-finite number). */
module Options {

  datatype Option<+T> = None | Some(value: T) {

    /** The value, or `default` when absent: JavaScript's `x || default`
        for a value whose only falsy form is the absent one or `default`. */
    function GetOr(default: T): (r: T)
      ensures Some? ==> r == value
      ensures None? ==> r == default
    {
      match this
      case Some(v) => v
      case None => default
    }
  }
}

=== FILE: route.dfy ===
/** The webhook gatekeeper of `app/api/zoom/route.js`: one POST delivery
    from the meeting platform is parsed, answered if it is the
    endpoint-ownership challenge, otherwise authenticated by its signed
    timestamp and relayed verbatim to the configured downstream URL.

    `Decide` is the decision the `POST` handler takes for one request, as a
    pure function. What the handler reads from its surroundings becomes a
    parameter: the configuration (`Config`), the request (`Request`), the
    clock (`nowMillis`, the value of `Date.now()`), and the three library
    calls whose internals are out of scope (`Primitives`). */
module Route {
  import opened Options
  import opened JsString
  import opened Json
  import opened Timestamp
  import opened Signature

  /** The `event` value of the endpoint-ownership challenge. */
  const ValidationEvent: string := "endpoint.url_validation"

  /** The process configuration after trimming: the shared secret and the
      downstream URL; "" means not configured. */
  datatype Config = Config(secret: string, gasUrl: string)

  /** One POST delivery: the body as the text `req.text()` decodes it
      (line 18), and the values
      of the `x-zm-request-timestamp` and `x-zm-signature` headers (`None`
      when absent). */
  datatype Request = Request(rawBody: string, timestampHeader: Option<string>, signatureHeader: Option<string>) {

    /** Line 47: the timestamp header, "" when absent. */
    function Ts(): string {
      timestampHeader.GetOr("")
    }

    /** Line 48: the signature header, "" when absent. */
    function Sig(): string {
      signatureHeader.GetOr("")
    }
  }

  /** The library calls the handler makes, as functions:
      - `hmacHex(key, msg)`: HMAC-SHA256 of `msg` under `key`, lower-case hex;
      - `parseJson(text)`: `JSON.parse`, `None` when it throws;
      - `toNumber(text)`: `Number(text)`, `None` when NaN or infinite. */
  datatype Primitives = Primitives(
    hmacHex: (string, string) -> string,
    parseJson: string -> Option<Json>,
    toNumber: string -> Option<real>)

  /** The response the handler produces. `Forward(body)` is the relay of
      `body` downstream, answered with 200 `{ok: true, forwardedStatus}`.
      `UncaughtTypeError` is a challenge whose token is truthy but not a
      string: the HMAC update rejects it and the handler throws instead of
      responding. */
  datatype Outcome =
    | InvalidJson
    | ChallengeOk(plainToken: string, encryptedToken: string)
    | MissingChallenge
    | UncaughtTypeError
    | Stale
    | BadSignature
    | MissingGasUrl
    | Forward(body: string)

  /** `v` is what `(env || "").trim()` must give for the raw environment
      value `env` (`None` when unset): "" exactly when the variable is unset
      or white space only; already trimmed, that is empty or starting and
      ending with a code point `trim` keeps; and otherwise the untouched
      piece of the raw value with nothing but white space before and after
      it. */
  ghost predicate IsLoadedSetting(env: Option<string>, v: string) {
    && (v == "" <==> env.None? || AllTrimmable(env.value))
    && (v == "" || (!IsTrimmable(v[0]) && !IsTrimmable(v[|v| - 1])))
    && (env.Some? ==> exists lo :: IsTrimmedInfix(env.value, v, lo))
  }

  /** Lines 15-16: `(process.env.X || "").trim()`, from the raw
      environment value. */
  function LoadSetting(env: Option<string>): (v: string)
    ensures IsLoadedSetting(env, v)
  {
    match env
    case None => ""
    case Some(raw) => TrimmedIsLoaded(raw); Trim(raw)
  }

  /** A set variable's trimmed value is a loaded setting. */
  lemma TrimmedIsLoaded(raw: string)
    ensures IsLoadedSetting(Some(raw), Trim(raw))
  {
    var v := Trim(raw);
    assert v == "" <==> AllTrimmable(raw);
    assert IsTrimmedInfix(raw, v, |raw| - |TrimStart(raw)|);
  }

  /** Lines 15-16: both settings loaded from the environment. */
  function LoadConfig(secretEnv: Option<string>, gasUrlEnv: Option<string>): (c: Config)
    ensures IsLoadedSetting(secretEnv, c.secret)
    ensures IsLoadedSetting(gasUrlEnv, c.gasUrl)
  {
    Config(LoadSetting(secretEnv), LoadSetting(gasUrlEnv))
  }

  /** Line 22: `rawBody ? JSON.parse(rawBody) : {}`. The empty body is the
      empty object, any other body is decoded, `None` when decoding fails. */
  function DecodeBody(rawBody: string, parseJson: string -> Option<Json>): (data: Option<Json>)
    ensures rawBody == "" ==> data == Some(EmptyObject)
    ensures rawBody != "" ==> data == parseJson(rawBody)
  {
    if rawBody == "" then Some(EmptyObject) else parseJson(rawBody)
  }

  /** Line 31: `data?.event === "endpoint.url_validation"`. */
  function IsChallenge(data: Json): (b: bool)
    ensures b <==> data.JObject? && (exists i :: 0 <= i < |data.members|
                                      && data.members[i] == ("event", JString(ValidationEvent))
                                      && forall j :: i < j < |data.members| ==> data.members[j].0 != "event")
  {
    Get(Some(data), "event") == Some(JString(ValidationEvent))
  }

  /** Line 32: `data?.payload?.plainToken`. */
  function ChallengeToken(data: Json): (token: Option<Json>)
    ensures token.Some? ==> data.JObject? && exists payload ::
              Lookup(data.members, "payload") == Some(JObject(payload)) && Lookup(payload, "plainToken") == token
    ensures data.JObject? && Lookup(data.members, "payload").Some? && Lookup(data.members, "payload").value.JObject?
            ==> token == Lookup(Lookup(data.members, "payload").value.members, "plainToken")
  {
    Get(Get(Some(data), "payload"), "plainToken")
  }

  /** Lines 32-43: the answer to the challenge. A non-empty string token and
      a configured secret give the token back with its HMAC under the
      secret; a falsy token or no secret is `MissingChallenge`; any other
      truthy token (number, boolean, array, object) makes the HMAC throw. */
  function AnswerChallenge(token: Option<Json>, secret: string, hmacHex: (string, string) -> string): (o: Outcome)
    ensures o.ChallengeOk? || o.MissingChallenge? || o.UncaughtTypeError?
    ensures o.ChallengeOk? <==> secret != "" && token.Some? && token.value.JString? && token.value.s != ""
    ensures o.ChallengeOk? ==> token == Some(JString(o.plainToken)) && o.encryptedToken == hmacHex(secret, o.plainToken)
    ensures o.MissingChallenge? <==> secret == "" || !Truthy(token)
  {
    if !Truthy(token) || secret == "" then MissingChallenge
    else match token.value
      case JString(t) => ChallengeOk(t, hmacHex(secret, t))
      case _ => UncaughtTypeError
  }

  /** Line 50: signature checking runs only with a configured secret, a
      signature header starting with `v0=`, and a non-empty timestamp
      header. Otherwise the delivery passes unauthenticated. */
  function VerificationApplies(secret: string, ts: string, sig: string): (b: bool)
    ensures b <==> secret != "" && ts != "" && ParseSignature(sig).Some?
  {
    secret != "" && StartsWith(sig, WirePrefix) && ts != ""
  }

  /** The signature header a genuine sender attaches to `rawBody` sent at
      `ts` (line 58). */
  function ExpectedSignature(hmacHex: (string, string) -> string, secret: string, ts: string, rawBody: string): (sig: string)
    ensures ParseSignature(sig) == Some(hmacHex(secret, SignedMessage(ts, rawBody)))
  {
    MatchIsParse(WirePrefix + hmacHex(secret, SignedMessage(ts, rawBody)), hmacHex(secret, SignedMessage(ts, rawBody)));
    RenderSignature(hmacHex(secret, SignedMessage(ts, rawBody)))
  }

  /** Line 22 for this request: its body decoded. */
  function Decoded(req: Request, prims: Primitives): Option<Json> {
    DecodeBody(req.rawBody, prims.parseJson)
  }

  /** The body decodes to the endpoint-ownership challenge (line 31). */
  predicate IsChallengeRequest(req: Request, prims: Primitives) {
    Decoded(req, prims).Some? && IsChallenge(Decoded(req, prims).value)
  }

  /** The body decodes to anything but the challenge: a delivery to
      authenticate and relay. */
  predicate IsDelivery(req: Request, prims: Primitives) {
    Decoded(req, prims).Some? && !IsChallenge(Decoded(req, prims).value)
  }

  /** The guard of line 50 holds for this request under `cfg`. */
  predicate Checked(cfg: Config, req: Request) {
    VerificationApplies(cfg.secret, req.Ts(), req.Sig())
  }

  /** The timestamp header passes `isTimestampFresh` at `nowMillis`
      (line 51). */
  predicate FreshAt(prims: Primitives, req: Request, nowMillis: int) {
    IsTimestampFresh(prims.toNumber(req.Ts()), NowSeconds(nowMillis))
  }

  /** The digest a genuine sender computes for this request under the
      configured secret (lines 57-58). */
  function GenuineDigest(cfg: Config, prims: Primitives, req: Request): string {
    prims.hmacHex(cfg.secret, SignedMessage(req.Ts(), req.rawBody))
  }

  /** The decision of the POST handler (lines 14-85) for one request, with
      the clock reading `nowMillis`. */
  function Decide(cfg: Config, prims: Primitives, req: Request, nowMillis: int): (o: Outcome)
    // A body that is present and does not decode is refused first.
    ensures o.InvalidJson? <==> req.rawBody != "" && prims.parseJson(req.rawBody).None?
    // A decoded challenge, and nothing else, is answered as one, before
    // and instead of any signature check or relay.
    ensures o.ChallengeOk? || o.MissingChallenge? || o.UncaughtTypeError? <==> IsChallengeRequest(req, prims)
    ensures o.ChallengeOk? ==> o.encryptedToken == prims.hmacHex(cfg.secret, o.plainToken) && cfg.secret != ""
    // Without all three of secret, `v0=` header and timestamp nothing is
    // refused as unauthorized.
    ensures o.Stale? || o.BadSignature? ==> Checked(cfg, req)
    // A stale timestamp is refused whatever the signature; a bad
    // signature is reported only for a fresh one.
    ensures o.Stale? ==> !FreshAt(prims, req, nowMillis)
    ensures IsDelivery(req, prims) && Checked(cfg, req) && !FreshAt(prims, req, nowMillis) ==> o.Stale?
    ensures o.BadSignature? ==> FreshAt(prims, req, nowMillis) && ParseSignature(req.Sig()) != Some(GenuineDigest(cfg, prims, req))
    // What is relayed is the raw body, only with a destination, and, when
    // checking applies, only if fresh and correctly signed over that body.
    ensures o.Forward? ==> o.body == req.rawBody && cfg.gasUrl != ""
    ensures o.Forward? && Checked(cfg, req) ==>
              FreshAt(prims, req, nowMillis) && ParseSignature(req.Sig()) == Some(GenuineDigest(cfg, prims, req))
  {
    var data := Decoded(req, prims);
    if data.None? then InvalidJson
    else if IsChallenge(data.value) then AnswerChallenge(ChallengeToken(data.value), cfg.secret, prims.hmacHex)
    else
      var ts := req.Ts();
      var sig := req.Sig();
      var refusal :=
        if VerificationApplies(cfg.secret, ts, sig) then
          if !IsTimestampFresh(prims.toNumber(ts), NowSeconds(nowMillis)) then Some(Stale)
          else if ExpectedSignature(prims.hmacHex, cfg.secret, ts, req.rawBody) != sig then Some(BadSignature)
          else None
        else None;
      if refusal.Some? then refusal.value
      else if cfg.gasUrl == "" then MissingGasUrl
      else Forward(req.rawBody)
  }

  /** The states a delivery's authentication ends in: passed through
      without checking, fresh and correctly signed, stale, or fresh with a
      wrong signature. */
  datatype Verification = Unverified | Authentic | StaleTimestamp | InvalidSignature

  /** Lines 47-65 as a verifier of their own: the timestamp is judged
      before the signature, and the signature is compared digest for digest
      against the HMAC of the signed message over the raw body. */
  function Verify(secret: string, ts: string, sig: string, rawBody: string, prims: Primitives, nowSec: int): (v: Verification)
    ensures v.Unverified? <==> !VerificationApplies(secret, ts, sig)
    ensures v.StaleTimestamp? <==> VerificationApplies(secret, ts, sig) && !IsTimestampFresh(prims.toNumber(ts), nowSec)
    ensures v.Authentic? <==>
              && VerificationApplies(secret, ts, sig)
              && IsTimestampFresh(prims.toNumber(ts), nowSec)
              && ParseSignature(sig) == Some(prims.hmacHex(secret, SignedMessage(ts, rawBody)))
  {
    if !VerificationApplies(secret, ts, sig) then Unverified
    else if !IsTimestampFresh(prims.toNumber(ts), nowSec) then StaleTimestamp
    else
      var digest := prims.hmacHex(secret, SignedMessage(ts, rawBody));
      if ParseSignature(sig) == Some(digest) then Authentic else InvalidSignature
  }

  /** The request cycle as a pipeline of components: decode, then answer
      the challenge, or verify and relay. Only an unverified or authentic
      delivery reaches the relay. */
  function Dispatch(cfg: Config, prims: Primitives, req: Request, nowMillis: int): (o: Outcome)
    ensures o.Forward? ==>
              Verify(cfg.secret, req.Ts(), req.Sig(), req.rawBody, prims, NowSeconds(nowMillis))
              in {Unverified, Authentic}
  {
    match Decoded(req, prims)
    case None => InvalidJson
    case Some(data) =>
      if IsChallenge(data) then AnswerChallenge(ChallengeToken(data), cfg.secret, prims.hmacHex)
      else
        match Verify(cfg.secret, req.Ts(), req.Sig(), req.rawBody, prims, NowSeconds(nowMillis))
        case StaleTimestamp => Stale
        case InvalidSignature => BadSignature
        case _ => if cfg.gasUrl == "" then MissingGasUrl else Forward(req.rawBody)
  }

  /** The HTTP status of each response; `None` for the thrown TypeError,
      whose status the hosting server chooses. */
  function Status(o: Outcome): (s: Option<int>)
    ensures s.None? <==> o.UncaughtTypeError?
    ensures s == Some(200) <==> o.ChallengeOk? || o.Forward?
    ensures s == Some(400) <==> o.InvalidJson? || o.MissingChallenge?
    ensures s == Some(401) <==> o.Stale? || o.BadSignature?
    ensures s == Some(500) <==> o.MissingGasUrl?
  {
    match o
    case InvalidJson => Some(400)
    case ChallengeOk(_, _) => Some(200)
    case MissingChallenge => Some(400)
    case UncaughtTypeError => None
    case Stale => Some(401)
    case BadSignature => Some(401)
    case MissingGasUrl => Some(500)
    case Forward(_) => Some(200)
  }

  /** The `error` field of the `{ok: false, error}` responses; `None` for
      the successful responses and the thrown TypeError. */
  function ErrorMessage(o: Outcome): (m: Option<string>)
    ensures m.Some? <==> Status(o).Some? && Status(o).value >= 400
  {
    match o
    case InvalidJson => Some("Invalid JSON")
    case MissingChallenge => Some("Missing plainToken/secret")
    case Stale => Some("Stale timestamp")
    case BadSignature => Some("Bad signature")
    case MissingGasUrl => Some("Missing GAS_URL")
    case _ => None
  }
}

=== FILE: route_properties.dfy ===
/** Properties of the webhook handler's decision that relate several
    requests, configurations or clock readings, or that characterise one
    outcome completely. */
module RouteProperties {
  import opened Options
  import opened Json
  import opened Timestamp
  import opened Signature
  import opened Route

  /** The handler's inline branching (lines 14-85) takes the same decision
      as the component pipeline decode, challenge, verify, relay. */
  lemma DecideIsDispatch(cfg: Config, prims: Primitives, req: Request, nowMillis: int)
    ensures Decide(cfg, prims, req, nowMillis) == Dispatch(cfg, prims, req, nowMillis)
  {
  }

  /** A body that is present and does not decode is refused with
      `InvalidJson` whatever the headers, the configuration, the clock and
      the other library calls. */
  lemma InvalidJsonWhateverElse(cfg1: Config, prims1: Primitives, req1: Request, now1: int,
                                cfg2: Config, prims2: Primitives, req2: Request, now2: int)
    requires req1.rawBody == req2.rawBody != ""
    requires prims1.parseJson(req1.rawBody).None? && prims2.parseJson(req2.rawBody).None?
    ensures Decide(cfg1, prims1, req1, now1) == Decide(cfg2, prims2, req2, now2) == InvalidJson
  {
  }

  /** The empty body is read as `{}`: it is never `InvalidJson`, never a
      challenge, and if relayed the empty text is what is relayed. */
  lemma EmptyBodyIsEmptyObject(cfg: Config, prims: Primitives, req: Request, nowMillis: int)
    requires req.rawBody == ""
    ensures Decide(cfg, prims, req, nowMillis) in {Stale, BadSignature, MissingGasUrl, Forward("")}
  {
  }

  /** A challenge is answered from its token and the secret alone. */
  lemma ChallengeAnswered(cfg: Config, prims: Primitives, req: Request, nowMillis: int, data: Json)
    requires Decoded(req, prims) == Some(data) && IsChallenge(data)
    ensures Decide(cfg, prims, req, nowMillis) == AnswerChallenge(ChallengeToken(data), cfg.secret, prims.hmacHex)
  {
  }

  /** Headers, destination, clock and number parsing have no say in the
      answer to a challenge: two requests with the same body under the same
      secret get the same answer. */
  lemma ChallengeIgnoresEverythingElse(cfg1: Config, prims1: Primitives, req1: Request, now1: int,
                                       cfg2: Config, prims2: Primitives, req2: Request, now2: int)
    requires cfg1.secret == cfg2.secret && req1.rawBody == req2.rawBody
    requires prims1.hmacHex == prims2.hmacHex && prims1.parseJson == prims2.parseJson
    requires IsChallengeRequest(req1, prims1)
    ensures Decide(cfg1, prims1, req1, now1) == Decide(cfg2, prims2, req2, now2)
  {
  }

  /** An example exchange: a body that decodes to
      `{"event":"endpoint.url_validation","payload":{"plainToken":"abc123"}}`,
      under secret `shh`, is answered with token `abc123` and
      `hmacHex("shh", "abc123")`. */
  lemma ChallengeExample(prims: Primitives, gasUrl: string, req: Request, nowMillis: int)
    requires req.rawBody != ""
    requires prims.parseJson(req.rawBody) == Some(ExampleChallenge())
    ensures Decide(Config("shh", gasUrl), prims, req, nowMillis) == ChallengeOk("abc123", prims.hmacHex("shh", "abc123"))
  {
    ExampleChallengeFields();
    ChallengeAnswered(Config("shh", gasUrl), prims, req, nowMillis, ExampleChallenge());
  }

  /** `{"event":"endpoint.url_validation","payload":{"plainToken":"abc123"}}`
      as `JSON.parse` returns it. */
  function ExampleChallenge(): Json {
    JObject([("event", JString("endpoint.url_validation")),
             ("payload", JObject([("plainToken", JString("abc123"))]))])
  }

  /** The example is a challenge carrying the token `abc123`. */
  lemma ExampleChallengeFields()
    ensures IsChallenge(ExampleChallenge())
    ensures ChallengeToken(ExampleChallenge()) == Some(JString("abc123"))
  {
    var payload := [("plainToken", JString("abc123"))];
    var members := [("event", JString("endpoint.url_validation")), ("payload", JObject(payload))];
    assert members[..1] == [("event", JString("endpoint.url_validation"))];
    assert Lookup(members, "payload") == Some(JObject(payload));
    assert Lookup(members, "event") == Some(JString(ValidationEvent));
  }

  /** A delivery is relayed exactly when it decodes, is not a challenge,
      passes unverified or authentic, and a destination is configured; the
      relayed text is then the raw body. */
  lemma ForwardExactly(cfg: Config, prims: Primitives, req: Request, nowMillis: int)
    ensures Decide(cfg, prims, req, nowMillis) == Forward(req.rawBody) <==>
              && IsDelivery(req, prims)
              && Verify(cfg.secret, req.Ts(), req.Sig(),
                        req.rawBody, prims, NowSeconds(nowMillis)) in {Unverified, Authentic}
              && cfg.gasUrl != ""
  {
  }

  /** With checking in force, the answer is `Stale` exactly when the
      timestamp is not fresh, whatever the signature header says. */
  lemma StaleBeforeSignature(cfg: Config, prims: Primitives, req: Request, nowMillis: int)
    requires IsDelivery(req, prims)
    requires Checked(cfg, req)
    ensures Decide(cfg, prims, req, nowMillis) == Stale <==> !FreshAt(prims, req, nowMillis)
  {
  }

  /** Even the signature a genuine sender would have attached does not
      save a stale delivery. */
  lemma GenuineSignatureStillStale(cfg: Config, prims: Primitives, req: Request, nowMillis: int)
    requires IsDelivery(req, prims)
    requires cfg.secret != "" && req.Ts() != ""
    requires req.Sig() == ExpectedSignature(prims.hmacHex, cfg.secret, req.Ts(), req.rawBody)
    requires !FreshAt(prims, req, nowMillis)
    ensures Decide(cfg, prims, req, nowMillis) == Stale
  {
    StaleBeforeSignature(cfg, prims, req, nowMillis);
  }

  /** The counterpart: a delivery carrying the signature a genuine sender
      attaches, with a fresh timestamp, is relayed to a configured
      destination, whether or not a secret is configured. */
  lemma GenuineFreshForwarded(cfg: Config, prims: Primitives, req: Request, nowMillis: int)
    requires IsDelivery(req, prims)
    requires req.Sig() == ExpectedSignature(prims.hmacHex, cfg.secret, req.Ts(), req.rawBody)
    requires FreshAt(prims, req, nowMillis)
    requires cfg.gasUrl != ""
    ensures Decide(cfg, prims, req, nowMillis) == Forward(req.rawBody)
  {
    ForwardExactly(cfg, prims, req, nowMillis);
    assert ParseSignature(req.Sig()) == Some(GenuineDigest(cfg, prims, req));
  }

  /** With checking in force and a fresh timestamp, `BadSignature` is
      answered exactly when the header differs from `v0=` followed by the
      HMAC of `v0:<ts>:<raw body>`. */
  lemma BadSignatureExactly(cfg: Config, prims: Primitives, req: Request, nowMillis: int)
    requires IsDelivery(req, prims)
    requires Checked(cfg, req)
    requires FreshAt(prims, req, nowMillis)
    ensures Decide(cfg, prims, req, nowMillis) == BadSignature <==>
              req.Sig() != ExpectedSignature(prims.hmacHex, cfg.secret, req.Ts(), req.rawBody)
  {
  }

  /** No destination configured: a delivery that gets past the checks,
      correctly signed or not checked at all, is refused with
      `MissingGasUrl`. */
  lemma MissingDestinationRefusesPassingDeliveries(cfg: Config, prims: Primitives, req: Request, nowMillis: int)
    requires cfg.gasUrl == ""
    requires IsDelivery(req, prims)
    requires Verify(cfg.secret, req.Ts(), req.Sig(),
                    req.rawBody, prims, NowSeconds(nowMillis)) in {Unverified, Authentic}
    ensures Decide(cfg, prims, req, nowMillis) == MissingGasUrl
  {
  }

  /** No secret configured: every decodable non-challenge delivery is
      relayed to a configured destination, whatever its headers say. */
  lemma NoSecretRelaysAnything(cfg: Config, prims: Primitives, req: Request, nowMillis: int)
    requires cfg.secret == "" && cfg.gasUrl != ""
    requires IsDelivery(req, prims)
    ensures Decide(cfg, prims, req, nowMillis) == Forward(req.rawBody)
  {
  }

  /** `hmacHex` under `key` is injective: the idealisation of a MAC under
      which the two lemmas below hold. A real HMAC-SHA256 has collisions,
      only infeasible ones. */
  ghost predicate CollisionFree(hmacHex: (string, string) -> string, key: string) {
    forall m1, m2 :: hmacHex(key, m1) == hmacHex(key, m2) ==> m1 == m2
  }

  /** A body altered after signing is refused: under checking, headers
      carrying a genuine signature of one body and a fresh timestamp make
      any other body that decodes to a non-challenge `BadSignature`, for an
      idealised (injective) HMAC. The signature is judged before the
      destination, so this holds whether or not one is configured. */
  lemma TamperedBodyRefused(cfg: Config, prims: Primitives, req: Request, nowMillis: int, body: string)
    requires CollisionFree(prims.hmacHex, cfg.secret)
    requires Checked(cfg, req)
    requires req.Sig() == ExpectedSignature(prims.hmacHex, cfg.secret, req.Ts(), req.rawBody)
    requires FreshAt(prims, req, nowMillis)
    requires body != req.rawBody
    requires IsDelivery(req.(rawBody := body), prims)
    ensures Decide(cfg, prims, req.(rawBody := body), nowMillis) == BadSignature
  {
    var ts := req.Ts();
    var m1 := SignedMessage(ts, req.rawBody);
    var m2 := SignedMessage(ts, body);
    SignedMessageDeterminesBody(ts, req.rawBody, body);
    assert m1 != m2;
    assert prims.hmacHex(cfg.secret, m1) != prims.hmacHex(cfg.secret, m2);
  }

  /** One signature authenticates one delivery: two checked deliveries
      relayed under the same signature header carry the same timestamp and
      the same body, for an idealised (injective) HMAC and a number parser
      that, like `Number`, never accepts text containing a colon. */
  lemma SignatureBindsDelivery(cfg: Config, prims: Primitives, req1: Request, now1: int, req2: Request, now2: int)
    requires CollisionFree(prims.hmacHex, cfg.secret)
    requires forall s :: prims.toNumber(s).Some? ==> ':' !in s
    requires req1.signatureHeader == req2.signatureHeader
    requires Checked(cfg, req1)
    requires Checked(cfg, req2)
    requires Decide(cfg, prims, req1, now1).Forward? && Decide(cfg, prims, req2, now2).Forward?
    ensures req1.timestampHeader == req2.timestampHeader && req1.rawBody == req2.rawBody
  {
    var ts1, ts2 := req1.Ts(), req2.Ts();
    var m1, m2 := SignedMessage(ts1, req1.rawBody), SignedMessage(ts2, req2.rawBody);
    // Both relays carry the digest of their own signed message, and the
    // digests are read from one header.
    assert ParseSignature(req1.Sig()) == Some(prims.hmacHex(cfg.secret, m1));
    assert ParseSignature(req2.Sig()) == Some(prims.hmacHex(cfg.secret, m2));
    assert m1 == m2;
    // Both timestamps were read as numbers, so neither holds a colon.
    assert prims.toNumber(ts1).Some? && prims.toNumber(ts2).Some?;
    SignedMessageInjective(ts1, req1.rawBody, ts2, req2.rawBody);
    assert req1.timestampHeader == Some(ts1) && req2.timestampHeader == Some(ts2);
  }

  /** Both authentication refusals share the status 401, but the handler
      names which check failed in the error text. */
  lemma AuthenticationRefusals()
    ensures Status(Stale) == Status(BadSignature) == Some(401)
    ensures ErrorMessage(Stale) != ErrorMessage(BadSignature)
  {
  }
}

=== FILE: signature.dfy ===
/** The signature scheme of event deliveries: the signed message
    `v0:<timestamp>:<raw body>` and the wire form `v0=<hex digest>` of
    the signature header (lines 3-5 and 57-59 of the route). The digest
    itself, `hmacHex`, is HMAC-SHA256 (RFC 2104 over SHA-256) rendered in
    lower-case hex; it is a parameter of the model, not defined here. */
module Signature {
  import opened Options
  import opened JsString

  /** The version tag that opens the wire form of a signature. */
  const WirePrefix: string := "v0="

  /** The version tag that opens the signed message. */
  const MessagePrefix: string := "v0:"

  /** The message whose digest a delivery's signature carries: the version
      tag, the timestamp header exactly as received, a colon, and the raw
      request body exactly as received (never a re-encoding of the parsed
      body). The timestamp and body can be read back from it. */
  function SignedMessage(ts: string, rawBody: string): (m: string)
    ensures |m| == |MessagePrefix| + |ts| + 1 + |rawBody|
    ensures StartsWith(m, MessagePrefix)
    ensures m[|MessagePrefix|..|MessagePrefix| + |ts|] == ts
    ensures m[|MessagePrefix| + |ts|] == ':'
    ensures m[|MessagePrefix| + |ts| + 1..] == rawBody
  {
    MessagePrefix + ts + ":" + rawBody
  }

  /** `"v0=" + digest`: the signature header the sender computes. */
  function RenderSignature(digest: string): (sig: string)
    ensures StartsWith(sig, WirePrefix) && sig[|WirePrefix|..] == digest
  {
    WirePrefix + digest
  }

  /** Reads a signature header: the digest after the `v0=` tag, or `None`
      when the header does not start with the tag (the handler then skips
      verification). */
  function ParseSignature(sig: string): (d: Option<string>)
    ensures d.Some? <==> StartsWith(sig, WirePrefix)
    ensures d.Some? ==> RenderSignature(d.value) == sig
  {
    if StartsWith(sig, WirePrefix) then Some(sig[|WirePrefix|..]) else None
  }

  /** Rendering then reading gives the digest back. */
  lemma ParseRender(digest: string)
    ensures ParseSignature(RenderSignature(digest)) == Some(digest)
  {
  }

  /** The handler's comparison `expected === sig` with
      `expected = "v0=" + digest` is the same as reading the digest out of
      the header and comparing digests. */
  lemma MatchIsParse(sig: string, digest: string)
    ensures RenderSignature(digest) == sig <==> ParseSignature(sig) == Some(digest)
  {
  }

  /** For a fixed timestamp the signed message determines the body, so a
      body changed in any code point yields a different message. */
  lemma {:induction false} SignedMessageDeterminesBody(ts: string, b1: string, b2: string)
    ensures SignedMessage(ts, b1) == SignedMessage(ts, b2) ==> b1 == b2
  {
    var k := |MessagePrefix| + |ts| + 1;
    if SignedMessage(ts, b1) == SignedMessage(ts, b2) {
      assert b1 == SignedMessage(ts, b1)[k..];
      assert b2 == SignedMessage(ts, b2)[k..];
    }
  }

  /** A timestamp with no colon in it is delimited by the first colon after
      the version tag, so such a (timestamp, body) pair is determined by its
      signed message. (With a colon allowed the message is ambiguous:
      `v0:1:2:x` signs both ("1", "2:x") and ("1:2", "x").) */
  lemma {:induction false} SignedMessageInjective(ts1: string, b1: string, ts2: string, b2: string)
    requires ':' !in ts1 && ':' !in ts2
    requires SignedMessage(ts1, b1) == SignedMessage(ts2, b2)
    ensures ts1 == ts2 && b1 == b2
  {
    var m := SignedMessage(ts1, b1);
    var p := |MessagePrefix|;
    assert |ts1| == |ts2| by {
      // The first colon after the tag ends both timestamps.
      assert m[p + |ts1|] == ':' && m[p + |ts2|] == ':';
    }
    assert ts1 == m[p..p + |ts1|] == ts2;
    SignedMessageDeterminesBody(ts1, b1, b2);
  }

  /** The ambiguity a colon in the timestamp brings, on a concrete pair. */
  lemma ColonTimestampAmbiguous()
    ensures SignedMessage("1", "2:x") == SignedMessage("1:2", "x")
  {
  }
}

=== FILE: timestamp.dfy ===
/** The freshness guard on the delivery timestamp (lines 7-12 of the
    route): a signed delivery is accepted only within five minutes of the
    receiver's clock, in either direction. */
module Timestamp {
  import opened Options

  /** The replay window, in seconds. */
  const FreshnessWindow: int := 300

  /** `Math.floor(Date.now() / 1000)`: whole seconds of a millisecond clock
      reading, rounded down also before 1970. */
  function NowSeconds(nowMillis: int): (s: int)
    ensures s * 1000 <= nowMillis < s * 1000 + 1000
  {
    nowMillis / 1000
  }

  /** `Math.abs` on the reals. */
  function Abs(x: real): (a: real)
    ensures a >= 0.0 && (a == x || a == -x)
  {
    if x < 0.0 then -x else x
  }

  /** `isTimestampFresh`: `n` is the header read as a number (`None` when
      `Number(ts)` is NaN or infinite), `nowSec` the clock in seconds.
      Fresh exactly when the number lies in the closed window of 300
      seconds around the clock. */
  function IsTimestampFresh(n: Option<real>, nowSec: int): (accepted: bool)
    ensures accepted <==> n.Some? && (nowSec - FreshnessWindow) as real <= n.value <= (nowSec + FreshnessWindow) as real
  {
    match n
    case None => false
    case Some(x) => Abs(nowSec as real - x) <= FreshnessWindow as real
  }

  /** The window is closed at both ends: exactly 300 seconds off either way
      is fresh, 301 seconds off either way is stale. */
  lemma FreshnessBoundary(nowSec: int)
    ensures IsTimestampFresh(Some((nowSec - 300) as real), nowSec)
    ensures IsTimestampFresh(Some((nowSec + 300) as real), nowSec)
    ensures !IsTimestampFresh(Some((nowSec - 301) as real), nowSec)
    ensures !IsTimestampFresh(Some((nowSec + 301) as real), nowSec)
  {
  }

  /** A timestamp that is not a finite number is never fresh, whatever the
      clock says. */
  lemma NonNumericNeverFresh(nowSec: int)
    ensures !IsTimestampFresh(None, nowSec)
  {
  }
}
